=== FILE: README.md ===
# specs-bench in Dafny

A model of the storage benchmark in `src/main.rs` of specs-bench. For every
fill percentage from 0 to 100, the benchmark does five things:

- It builds a fresh ECS world with five component storages: `VecStorage`,
  `DenseVecStorage`, `BTreeStorage`, `HashMapStorage` and `NullStorage`.
- It fills ten million entity slots. Randomly sized runs are either
  populated with all five components or created bare, and the runs are
  shuffled together.
- It churns the world for 2000 rounds. Each round deletes the populated
  entities of a random window of slots, then re-creates as many and
  populates them again.
- It sums the payload through each of the four value storages and counts
  through the null storage.
- It asserts that the four sums agree.

The model is functional.

- The thread-local random generator is an oracle: `Random.Rng` is a stream
  with one draw per `gen_range` call, plus a read position. `CutsIter::next`, the shuffle and the
  churn all read the same stream, in program order.
- The ECS world is `Ecs.World`: an allocator of slot indices and five
  storages held as maps and a set.
- Every `unwrap` and `assert_eq!` that could panic is a `Result` whose
  error is a `Fault.Panic`.

Modules, in dependency order:

- `Wrappers`: `Option`, `Result` and the panics.
- `Random`: `gen_range`, and `shuffle` as rand's swap loop.
- `Cuts`: `CutsIter`.
- `Ecs`: the allocator, the storages, insert and delete.
- `Fill`: the fill-to-target block.
- `Churn`: the delete-and-recreate block.
- `Bench`: the joins, the cross-check and the sweep.

Main results:

- The cut iterator spends its budget exactly, in cuts of at least one
  (`Cuts.ValidCutsSpendBudget`). It can produce every cut sequence whose
  cuts each lie in `[1, MaxLen(budget left)]` (`Cuts.ValidCuts`,
  `Cuts.CollectReachesAll`). A cut longer than that bound, such as the
  single cut `[4]` for a budget of 4, is never produced.
- The shuffled plan populates exactly `num_set` slots and skips exactly
  `num_unset`, whatever permutation the shuffle picks
  (`Fill.SumWherePermutation`, `Fill.Plan`). The fill block marks exactly
  the slots of the plan's populated runs, laid out in plan order from
  slot 0 (`Fill.FillWorld`), and those number `num_set`
  (`Fill.PlanLayoutCard`).
- A churn round re-issues exactly the slots it freed
  (`Churn.DeleteThenCreate`). It leaves the allocator, the set of
  populated slots and every payload outside its window unchanged
  (`Churn.ChurnStep`).
- Each join sums exactly the ordinals its storage holds, and the four
  sums always agree, so the `assert_eq!` chain never fires
  (`Bench.Measure`, `Bench.SumBelowIsMapSum`).
  For a capacity within the program's integer widths, the only panic in
  the whole sweep is the churn's
  `gen_range(1, spread / 5000)` when the capacity is below 10000
  (`Bench.SweepStep`, `Bench.Sweep`).
- At the real capacity the sweep never panics and row `k` counts `k`
  percent of ten million entities (`Bench.Benchmark`).

Details of the code that the model keeps:

- The ordinal a populated entity gets is its position within its fill run
  or churn batch (src/main.rs:125-126, 179-180), not a global counter
  (`Ecs.InsertBatchEffect`).
- A skipped run still creates its entities, and they stay alive
  (src/main.rs:136, `Fill.SkippedCut`).
- Nothing clamps the churn window: `gen_range(1, spread / 5000)` panics
  when `spread / 5000 <= 1` (src/main.rs:149, `Churn.DrawWindow`).
- A freed slot is reused last-in-first-out (`Ecs.Allocate`).

## Model

| member | source | states |
|---|---|---|
| Random.GenRange | src/main.rs:149-150 | `gen_range(lo, hi)` succeeds exactly when `lo < hi`, with a value in `[lo, hi)` that consumes one draw; otherwise it panics with the empty range |
| Random.Shuffle | src/main.rs:110 | the shuffled sequence is a permutation of the input (same length, same multiset), and sequences of length at most one are unchanged |
| Cuts.MaxLen | src/main.rs:60 | the largest cut is at least half the budget (rounded down) and at least 2 when two or more remain, never more than the budget, and no more than half the budget once that half exceeds 2; together these fix it to `min(max(remaining / 2, 2), remaining)` |
| Cuts.Next | src/main.rs:56-65 | `next` yields `None` exactly when nothing remains (leaving the state and the generator alone); otherwise a cut in `[1, max_len]` that the remaining budget loses, consuming one draw |
| Cuts.Collect | src/main.rs:44-66 | draining the iterator yields a cut sequence valid for its budget, one draw per cut |
| Cuts.ValidCutsSpendBudget | src/main.rs:56-65 | a valid cut sequence sums to its budget; every cut is between 1 and the budget; there are at most as many cuts as units of budget |
| Cuts.CollectSpendsTotal | src/main.rs:49-51 | `CutsIter::new(total)` drained sums to `total` and yields nothing exactly when `total` is 0 |
| Cuts.CollectFollowsScript | src/main.rs:56-65 | when the generator's draws are one less than the wanted cuts, the iterator yields exactly those cuts |
| Cuts.CollectReachesAll | src/main.rs:56-65 | every valid cut sequence for a budget is what the iterator yields for some generator |
| Fill.NumSet | src/main.rs:104 | `num_set` never exceeds the capacity for a percentage up to 100; it is 0 at 0 percent and the whole capacity at 100 |
| Fill.NumUnset | src/main.rs:105 | `num_set + num_unset` is the capacity |
| Fill.SumWherePermutation | src/main.rs:110 | any reordering of the tagged runs keeps the populated total and the skipped total |
| Fill.SumWhereConcat | src/main.rs:106-109 | the totals of a chained plan are the sums of the totals of its parts |
| Fill.Plan | src/main.rs:104-110 | the shuffled plan's populated runs total `num_set` and its skipped runs `num_unset`; every run is non-empty; at 100 percent every run is populated and at 0 percent none is |
| Fill.ApplyCut | src/main.rs:112-137 | one run keeps the world invariant and every earlier payload; a populated run adds exactly its length to the populated slots, a skipped run none; on a world with no freed slots the run issues exactly the next `len` fresh slots, a populated run marks exactly those and slot `start + k` holds ordinal `k` |
| Fill.CreateRun | src/main.rs:115 | `create_iter().take(len)` yields `len` distinct live entities that carry no components and leaves the storages alone; with no freed slot they are the next `len` fresh slots in increasing order |
| Fill.PopulateRun | src/main.rs:125-134 | inserting the five components into a run of new entities marks exactly the run's slots, gives entity `k` of the run ordinal `k`, keeps every earlier payload and never panics |
| Fill.PopulatedCut | src/main.rs:113-134 | a populated run on a world with no freed slots marks exactly the slots `start .. start + len`, with slot `i` holding ordinal `i - start` |
| Fill.SkippedCut | src/main.rs:135-137 | a skipped run leaves the storages alone and, with no freed slot, issues exactly `len` fresh slots |
| Fill.ApplyCuts | src/main.rs:112-138 | applying a plan adds its populated total to the populated slots; without freed slots it issues populated plus skipped total fresh slots and the runs take consecutive slots in plan order, so exactly the populated runs' slots get marked |
| Fill.FillWorld | src/main.rs:103-139 | after the fill block exactly `capacity` slots are issued, all alive with none freed, and the components sit on exactly the slots of the shuffled plan's populated runs, laid out one after another from slot 0 |
| Fill.FillCounts | src/main.rs:103-139 | after the fill block exactly `capacity` slots are issued with none freed, the storages agree, exactly `num_set` entities carry the components, and the generator continues from where drawing the plan left it |
| Fill.LayoutCard | src/main.rs:112-138 | runs laid out one after another never overlap, so a plan marks exactly its populated total of slots |
| Fill.PlanLayoutCard | src/main.rs:104-138 | the slots the fill block marks number exactly `num_set` |
| Ecs.NewWorld | src/main.rs:78-83 | a new world with the five storages registered is empty: no slot issued, nothing freed, nothing populated, and the storages in agreement |
| Ecs.Allocate | src/main.rs:115 | an allocation issues a slot that was dead and is now alive, changing no other slot; it pops the most recently freed slot if any, else a fresh one |
| Ecs.Kill | src/main.rs:164 | freeing succeeds exactly for a live slot, which becomes dead and goes on top of the reuse stack; no other slot changes; a dead slot is refused |
| Ecs.CreateN | src/main.rs:115 | `create_iter().take(n)` issues `n` distinct slots, each dead before and alive after, and changes no other slot |
| Ecs.CreateNFromFree | src/main.rs:169 | with at least `n` freed slots, `n` allocations return the top `n` of the reuse stack and issue nothing fresh |
| Ecs.CreateNFresh | src/main.rs:136 | with no freed slot, `n` allocations issue the next `n` fresh slots in increasing order and leave the reuse stack empty |
| Ecs.Insert | src/main.rs:126-133 | the five inserts succeed exactly for a live entity; they keep the storages in agreement, add the slot to the null storage, store the ordinal, and leave every other slot's payload alone |
| Ecs.InsertBatch | src/main.rs:125-134 | the insert loop succeeds exactly when every entity of the batch is alive, and leaves the allocator alone |
| Ecs.InsertBatchEffect | src/main.rs:125-134 | a batch of distinct entities keeps the storages in agreement, marks exactly the batch's slots, gives entity `k` of the batch the ordinal `k`, and changes no other slot |
| Ecs.Delete | src/main.rs:164 | `delete_entity` succeeds exactly for a live entity; it frees the slot onto the reuse stack, drops it from all five storages and keeps the world invariant |
| Ecs.DeleteAll | src/main.rs:163-165 | a delete loop keeps the world invariant and never changes a surviving payload |
| Ecs.DeleteAllFrees | src/main.rs:163-165 | deleting distinct live entities never panics and stacks their slots on the reuse stack, the last deleted on top |
| Ecs.DeleteAllDrops | src/main.rs:163-165 | deleting distinct live entities removes exactly their slots from the populated set |
| Churn.DrawWindow | src/main.rs:144-150 | the window draw succeeds exactly when `capacity / 5000 > 1`; then `1 <= len < capacity / 5000` and `offset + len < capacity`, using two draws; otherwise it panics on the empty range `[1, capacity / 5000)` |
| Churn.Probe | src/main.rs:153-162 | the probe lists, in strictly increasing order, exactly the window's slots that the null storage marks |
| Churn.DeleteThenCreate | src/main.rs:163-169 | deleting the probed (distinct, populated) entities never panics and removes exactly their slots from the populated set; creating as many entities afterwards re-issues exactly those slots, last deleted first, and restores the allocator |
| Churn.ChurnStep | src/main.rs:151-188 | a round keeps the world invariant, the allocator, and the set of populated slots (so the live count), leaves every payload outside its window unchanged, and leaves probed slot `d[k]` holding ordinal `|d| - 1 - k`, because the freed slots are re-issued last deleted first and entity `k` of the new batch gets ordinal `k` |
| Churn.ChurnPass | src/main.rs:148-189 | 2000 rounds succeed exactly when no round is drawn or `capacity / 5000 > 1`, keep the allocator and the populated slots, and read two draws per round |
| Bench.CountBelowIsCard | src/main.rs:222-225 | counting the null storage's slots below a bound counts exactly its slots below that bound |
| Bench.Measure | src/main.rs:193-225 | the null join counts exactly the populated entities; each value join's sum is the total of the ordinals its storage holds; the four sums are equal, and 0 on a world with nothing populated |
| Bench.SumBelowIsMapSum | src/main.rs:195-197 | summing slot by slot up to a bound above every stored slot gives exactly the total of the stored values, whatever order they are taken in |
| Bench.CrossCheck | src/main.rs:232-235 | the `assert_eq!` chain passes exactly when the four sums agree; otherwise it reports the first mismatch in program order: vec against dense, then vec against btree, then vec against hash |
| Bench.Report | src/main.rs:193-235 | on a world whose invariant holds, the cross-check never panics; the row counts the populated entities and its sum is the total of the stored ordinals |
| Bench.SweepStep | src/main.rs:77-235 | one sweep step panics exactly when `capacity / 5000 <= 1`; otherwise its row counts `num_set` entities with the four sums equal, no entity and sum 0 at 0 percent, and the whole capacity at 100 |
| Bench.Sweep | src/main.rs:76-247 | the sweep succeeds exactly when `capacity / 5000 > 1`, producing 101 rows, where row `k` is for `k` percent, counts `num_set` entities and has agreeing sums, and the 0 percent row sums to zero |
| Bench.Benchmark | src/main.rs:68-247 | at ten million entities the benchmark never panics; row `k` counts `10_000_000 * k / 100` entities, the last the whole capacity, all sums agree, and the first row sums to zero |

## Left out

- Timing (`Instant`), the progress `print!`/`println!` lines and the CSV
  output file: the model keeps what is measured, not how long it took or
  where it is written.
- The commented-out per-entity fill loop at src/main.rs:85-101, which is
  not executed.
- The repeated `assert_eq!(vec_sum, b_tree_sum)` at src/main.rs:234. It
  checks nothing new, and `Bench.CrossCheck` makes the comparison once.
- The `BunchOfCrap` padding inside each component. It is default-constructed
  and never read, so a component is just its ordinal.
- The ECS library's code is not part of this model. Its allocator and
  storages are stood in for by `Ecs.Allocator` and `Ecs.Storages`, built to
  the library's behaviour:
  - An entity is its slot index. Generations are not modelled, because the
    benchmark never holds a stale entity: it probes and deletes live slots
    only, and inserts only into entities it has just created.
  - A freed slot is reused last-in-first-out, from the library's reuse
    stack. In the benchmark the stack is empty at the start of every churn
    round, so first-in-first-out reuse would also restore the allocator and
    re-issue exactly the freed slots. There the order decides only which
    probed slot gets which ordinal: `Churn.ChurnStep` gives probed slot
    `d[k]` the ordinal `|d| - 1 - k`. `Churn.ChurnStep` itself allows other
    freed slots to wait on the stack, and then both its "allocator
    unchanged" and its "same populated slots" depend on last-in-first-out
    reuse, since another order would re-issue a slot that was not just
    freed.
  - `maintain()` is left out. Deletion through `delete_entity` takes
    effect immediately, and the benchmark creates no entity lazily.
  - The storages' internal layouts (dense index tables, hashing, B-tree
    nodes and the bit mask) are left out. They are what the benchmark
    times, and they do not change which slot holds which ordinal.
- The random generator's internal algorithm is left out, and so is how
  `gen_range` maps raw bits into a range without bias. A draw is an
  oracle value reduced into the range. `Random.SampleReachesAll` and
  `Cuts.CollectReachesAll` show that this loses no outcome.
- `Random.Shuffle` models rand's swap loop driven by the stream. The model
  relies only on its result being a permutation, and it does not state
  that every permutation is reachable.
- The sums are `usize` in the program and unbounded here. The ordinals
  stay below ten million per run, and there are at most ten million
  populated entities. The sums therefore stay below 10^14, far from
  2^64, so no overflow is possible at the real capacity. The model does
  not prove this bound.
- The capacity is a parameter of `Bench.SweepStep` and `Bench.Sweep`, and
  the model ignores two integer widths that the program applies to it:
  `CAPACITY * i` at src/main.rs:104 is `usize` arithmetic, and `j as _`
  at src/main.rs:157 casts a slot into the library's narrower entity
  index. Neither overflows at the program's constant of ten million, so
  the model is exact there (`Bench.Benchmark`). For a capacity large
  enough to overflow either, the claim that the window draw is the only
  panic is the model's, not the program's.
- The comment at src/main.rs:142 speaks of the top 20% of entities. Since
  `min_bound` is `CAPACITY * 0 / 10`, the window ranges over the whole
  capacity, and that is what the model does.

=== FILE: bench.dfy ===
/** One benchmark sweep: for every fill percentage from 0 to 100, fill a
    fresh world, churn it, sum the ordinals through each storage, count the
    null storage and cross-check the four sums. */
module Bench {
  import opened Wrappers
  import opened Fault
  import opened Random
  import opened Ecs
  import opened Fill
  import opened Churn

  const Capacity: nat := 10_000_000

  /** What one step measures: the sum of the ordinals joined through each
      value storage and the number of entities joined through the null
      storage. The timings next to them are not modelled. */
  datatype Row = Row(percent: nat, vecSum: nat, denseSum: nat, btreeSum: nat, hashSum: nat, count: nat)

  /** The sum of the values stored at slots `0 .. n`. */
  function SumBelow(m: map<nat, nat>, n: nat): nat {
    if n == 0 then 0 else SumBelow(m, n - 1) + (if n - 1 in m then m[n - 1] else 0)
  }

  /** The number of slots `0 .. n` in `s`. */
  function CountBelow(s: set<nat>, n: nat): nat {
    if n == 0 then 0 else CountBelow(s, n - 1) + (if n - 1 in s then 1 else 0)
  }

  lemma {:induction false} CountBelowIsCard(s: set<nat>, n: nat)
    ensures CountBelow(s, n) == |set i | i in s && i < n|
  {
    if n == 0 {
      assert (set i | i in s && i < n) == {};
    } else {
      CountBelowIsCard(s, n - 1);
      var below := set i | i in s && i < n - 1;
      if n - 1 in s {
        assert (set i | i in s && i < n) == below + {n - 1};
      } else {
        assert (set i | i in s && i < n) == below;
      }
    }
  }

  lemma {:induction false} SumBelowEmpty(m: map<nat, nat>, n: nat)
    requires m == map[]
    ensures SumBelow(m, n) == 0
  {
    if n > 0 {
      SumBelowEmpty(m, n - 1);
    }
  }

  /** The total of the values in `m`, in no particular slot order: take out
      any key and add its value to the total of the rest. */
  ghost function MapSum(m: map<nat, nat>): nat
    decreases |m|
  {
    if m == map[] then 0
    else
      var k :| k in m;
      assert |m - {k}| < |m| by {
        assert m.Keys == (m - {k}).Keys + {k};
      }
      m[k] + MapSum(m - {k})
  }

  /** Whichever key is taken out first, the total is the same. */
  lemma {:induction false} MapSumRemove(m: map<nat, nat>, k: nat)
    requires k in m
    ensures MapSum(m) == m[k] + MapSum(m - {k})
    decreases |m|
  {
    var j :| j in m && MapSum(m) == m[j] + MapSum(m - {j});
    if j != k {
      assert m.Keys == (m - {j}).Keys + {j};
      assert m.Keys == (m - {k}).Keys + {k};
      MapSumRemove(m - {j}, k);
      MapSumRemove(m - {k}, j);
      assert m - {j} - {k} == m - {k} - {j};
    }
  }

  /** Slots at or above `n` do not enter the sum below `n`. */
  lemma {:induction false} SumBelowFrame(m: map<nat, nat>, k: nat, n: nat)
    requires n <= k
    ensures SumBelow(m - {k}, n) == SumBelow(m, n)
  {
    if n > 0 {
      SumBelowFrame(m, k, n - 1);
    }
  }

  /** Joining slot by slot up to a bound above every key adds up exactly
      the stored values. */
  lemma {:induction false} SumBelowIsMapSum(m: map<nat, nat>, n: nat)
    requires forall k :: k in m ==> k < n
    ensures SumBelow(m, n) == MapSum(m)
  {
    if n == 0 {
      assert m.Keys == {};
    } else if n - 1 in m {
      SumBelowFrame(m, n - 1, n - 1);
      SumBelowIsMapSum(m - {n - 1}, n - 1);
      MapSumRemove(m, n - 1);
    } else {
      SumBelowIsMapSum(m, n - 1);
    }
  }

  /** The five joins over the world's slots. The null join counts exactly
      the component-carrying entities, and storages in lockstep give four
      equal sums. */
  function Measure(w: World, percent: nat): (row: Row)
    requires WorldInv(w)
    ensures row.percent == percent
    ensures row.count == |w.st.presence|
    ensures row.vecSum == MapSum(w.st.vec) && row.denseSum == MapSum(w.st.dense)
    ensures row.btreeSum == MapSum(w.st.btree) && row.hashSum == MapSum(w.st.hash)
    ensures SumsAgree(row)
    ensures w.st.presence == {} ==> row.vecSum == 0
  {
    var n := w.alloc.next;
    assert forall k :: k in w.st.vec ==> k < n by {
      forall k | k in w.st.vec
        ensures k < n
      {
        assert k in w.st.presence;
      }
    }
    SumBelowIsMapSum(w.st.vec, n);
    CountBelowIsCard(w.st.presence, n);
    assert (set i | i in w.st.presence && i < n) == w.st.presence;
    assert w.st.presence == {} ==> SumBelow(w.st.vec, n) == 0 by {
      if w.st.presence == {} {
        assert w.st.vec == map[];
        SumBelowEmpty(w.st.vec, n);
      }
    }
    Row(percent, SumBelow(w.st.vec, n), SumBelow(w.st.dense, n), SumBelow(w.st.btree, n),
      SumBelow(w.st.hash, n), CountBelow(w.st.presence, n))
  }

  /** The four value joins produced the same sum. */
  predicate SumsAgree(row: Row) {
    row.vecSum == row.denseSum && row.vecSum == row.btreeSum && row.vecSum == row.hashSum
  }

  /** A row as the sweep writes it at `percent`: `num_set` entities counted
      and the four sums in agreement. */
  predicate RowFor(row: Row, capacity: nat, percent: nat) {
    row.percent == percent && row.count == NumSet(capacity, percent) && SumsAgree(row)
  }

  /** The `assert_eq!` chain: the vec sum against the dense, btree and hash
      sums in that order, panicking at the first mismatch. */
  function CrossCheck(row: Row): (r: Result<Row, Panic>)
    ensures r.Success? <==> SumsAgree(row)
    ensures r.Success? ==> r.value == row
    ensures r.Failure? && row.vecSum != row.denseSum ==> r.error == SumMismatch(row.vecSum, row.denseSum)
    ensures r.Failure? && row.vecSum == row.denseSum && row.vecSum != row.btreeSum ==>
      r.error == SumMismatch(row.vecSum, row.btreeSum)
    ensures r.Failure? && row.vecSum == row.denseSum && row.vecSum == row.btreeSum ==>
      r.error == SumMismatch(row.vecSum, row.hashSum)
  {
    if row.vecSum != row.denseSum then Failure(SumMismatch(row.vecSum, row.denseSum))
    else if row.vecSum != row.btreeSum then Failure(SumMismatch(row.vecSum, row.btreeSum))
    else if row.vecSum != row.hashSum then Failure(SumMismatch(row.vecSum, row.hashSum))
    else Success(row)
  }

  /** The joins and the cross-check on a world whose storages agree: the
      cross-check never fails, and the null join counts the entities that
      carry components. */
  method Report(w: World, percent: nat) returns (r: Result<Row, Panic>)
    requires WorldInv(w)
    ensures r.Success?
    ensures var row := r.value;
      && row.percent == percent && row.count == |w.st.presence| && SumsAgree(row)
      && row.vecSum == MapSum(w.st.vec)
      && (w.st.presence == {} ==> row.vecSum == 0)
  {
    r := CrossCheck(Measure(w, percent));
  }

  /** One iteration of the sweep: fill a fresh world, churn, join and
      cross-check. It panics only where the churn's window draw does, and
      the null join counts `num_set` entities: none at 0 percent, all of
      them at 100. */
  method SweepStep(capacity: nat, percent: nat, rng: Rng) returns (r: Result<(Row, Rng), Panic>)
    requires percent <= 100
    ensures r.Success? <==> capacity / 5000 > 1
    ensures r.Failure? ==> r.error == EmptyRange(1, capacity / 5000)
    ensures r.Success? ==>
      var row := r.value.0;
      && RowFor(row, capacity, percent)
      && (percent == 0 ==> row.count == 0 && row.vecSum == 0)
      && (percent == 100 ==> row.count == capacity)
  {
    var filled, rng1 := FillCounts(capacity, percent, rng);
    var churned := ChurnPass(filled, capacity, rng1, ChurnRounds);
    if churned.Failure? {
      return Failure(churned.error);
    }
    var report := Report(churned.value.0, percent);
    r := Success((report.value, churned.value.1));
  }

  /** The loop over the fill percentages 0 to 100, one row each, the first
      of which sums to zero; the first step's panic, if any, ends it. */
  method Sweep(capacity: nat, rng: Rng) returns (r: Result<seq<Row>, Panic>)
    ensures r.Success? <==> capacity / 5000 > 1
    ensures r.Failure? ==> r.error == EmptyRange(1, capacity / 5000)
    ensures r.Success? ==>
      && |r.value| == 101
      && (forall k :: 0 <= k < 101 ==> RowFor(r.value[k], capacity, k))
      && r.value[0].vecSum == 0
  {
    var rows: seq<Row> := [];
    var cur := rng;
    for percent := 0 to 101
      invariant |rows| == percent
      invariant forall k :: 0 <= k < percent ==> RowFor(rows[k], capacity, k)
      invariant percent > 0 ==> capacity / 5000 > 1
      invariant percent > 0 ==> rows[0].vecSum == 0
    {
      var step := SweepStep(capacity, percent, cur);
      if step.Failure? {
        return Failure(step.error);
      }
      rows := rows + [step.value.0];
      cur := step.value.1;
    }
    r := Success(rows);
  }

  /** The benchmark at ten million entities: it never panics, writes 101
      rows, row `k` counts `k` percent of the capacity, and the first row
      sums to zero. */
  method Benchmark(rng: Rng) returns (rows: seq<Row>)
    ensures |rows| == 101
    ensures forall k :: 0 <= k < 101 ==> rows[k].percent == k && rows[k].count == Capacity * k / 100
    ensures forall k :: 0 <= k < 101 ==> SumsAgree(rows[k])
    ensures rows[100].count == Capacity
    ensures rows[0].vecSum == 0
  {
    var r := Sweep(Capacity, rng);
    rows := r.value;
  }
}

=== FILE: churn.dfy ===
/** The churn block of one sweep step: 2000 rounds, each deleting the
    component-carrying entities of a random window of slots and creating as
    many new entities with fresh components. */
module Churn {
  import opened Wrappers
  import opened Fault
  import opened Random
  import opened Ecs

  /** The slots `offset .. offset + len` probed by one round. */
  datatype Window = Window(offset: nat, len: nat)

  const ChurnRounds: nat := 2000

  /** Draws a round's window over the whole capacity: the length from
      `gen_range(1, spread / 5000)`, then the offset from
      `gen_range(0, spread - len)`. The first draw panics when the spread is
      below 10000, leaving that range empty. */
  function DrawWindow(capacity: nat, rng: Rng): (r: Result<(Window, Rng), Panic>)
    ensures r.Success? <==> capacity / 5000 > 1
    ensures r.Failure? ==> r.error == EmptyRange(1, capacity / 5000)
    ensures r.Success? ==>
      var (win, rng') := r.value;
      && 1 <= win.len < capacity / 5000
      && win.offset + win.len < capacity
      && rng' == Rng(rng.stream, rng.pos + 2)
  {
    var minBound := capacity * 0 / 10;
    var spread := capacity - minBound;
    var (len, rng1) :- GenRange(rng, 1, spread / 5000);
    var (offset, rng2) := GenRange(rng1, 0, spread - len).value;
    Success((Window(minBound + offset, len), rng2))
  }

  /** The slots of `lo .. hi` that carry components, in ascending order:
      the entities the round deletes. */
  function Probe(presence: set<nat>, lo: nat, hi: nat): (r: seq<nat>)
    ensures forall k :: 0 <= k < |r| ==> lo <= r[k] < hi && r[k] in presence
    ensures forall k, l :: 0 <= k < l < |r| ==> r[k] < r[l]
    ensures forall i :: lo <= i < hi && i in presence ==> i in r
    decreases hi - lo
  {
    if hi <= lo then []
    else if lo in presence then [lo] + Probe(presence, lo + 1, hi)
    else Probe(presence, lo + 1, hi)
  }

  lemma ReverseElems(s: seq<nat>)
    ensures Elems(Reverse(s)) == Elems(s)
  {
    forall x | x in Elems(s)
      ensures x in Elems(Reverse(s))
    {
      var k :| 0 <= k < |s| && s[k] == x;
      assert Reverse(s)[|s| - 1 - k] == x;
    }
  }

  lemma ReverseDistinct(s: seq<nat>)
    requires Distinct(s)
    ensures Distinct(Reverse(s))
  {
  }

  /** Deleting distinct live entities and then creating as many pops the
      deleted slots back off the free stack, newest first, leaving the
      allocator as it was before the deletes. */
  lemma DeleteThenCreate(w: World, deletes: seq<nat>)
    requires WorldInv(w) && Distinct(deletes)
    requires forall k :: 0 <= k < |deletes| ==> deletes[k] in w.st.presence
    ensures DeleteAll(w, deletes).Success?
    ensures var w1 := DeleteAll(w, deletes).value;
      && w1.st.presence == w.st.presence - Elems(deletes)
      && CreateN(w1.alloc, |deletes|) == (w.alloc, Reverse(deletes))
  {
    DeleteAllFrees(w, deletes);
    DeleteAllDrops(w, deletes);
    var w1 := DeleteAll(w, deletes).value;
    CreateNFromFree(w1.alloc, |deletes|);
    assert (Reverse(deletes) + w.alloc.free)[|deletes|..] == w.alloc.free;
    assert (Reverse(deletes) + w.alloc.free)[..|deletes|] == Reverse(deletes);
  }

  /** Reinserting the deleted slots restores the set of component-carrying
      slots and leaves the payload of every other slot alone. */
  lemma Reinsert(w: World, w1: World, deletes: seq<nat>)
    requires WorldInv(w) && WorldInv(w1) && Distinct(deletes)
    requires forall k :: 0 <= k < |deletes| ==> deletes[k] in w.st.presence
    requires w1.st.presence == w.st.presence - Elems(deletes)
    requires forall i :: i in w1.st.vec ==> i in w.st.vec && w1.st.vec[i] == w.st.vec[i]
    ensures InsertBatch(World(w.alloc, w1.st), Reverse(deletes)).Success?
    ensures var w2 := InsertBatch(World(w.alloc, w1.st), Reverse(deletes)).value;
      && WorldInv(w2)
      && w2.alloc == w.alloc
      && w2.st.presence == w.st.presence
      && (forall i :: i in w.st.vec && i !in deletes ==> w2.st.vec[i] == w.st.vec[i])
      && forall k :: 0 <= k < |deletes| ==> w2.st.vec[deletes[k]] == |deletes| - 1 - k
  {
    var created := Reverse(deletes);
    ReverseElems(deletes);
    ReverseDistinct(deletes);
    var w0 := World(w.alloc, w1.st);
    forall k | 0 <= k < |created|
      ensures IsAlive(w0.alloc, created[k])
    {
      assert created[k] in Elems(created);
    }
    InsertBatchEffect(w0, created);
    var w2 := InsertBatch(w0, created).value;
    assert w2.st.presence == w.st.presence;
    forall i | i in w.st.vec && i !in deletes
      ensures w2.st.vec[i] == w.st.vec[i]
    {
      assert i !in Elems(created);
      assert i in w1.st.vec;
    }
    forall k | 0 <= k < |deletes|
      ensures w2.st.vec[deletes[k]] == |deletes| - 1 - k
    {
      assert created[|deletes| - 1 - k] == deletes[k];
    }
  }

  /** One round after its window is drawn: delete the probed entities, then
      create as many entities, which reuse the freed slots last deleted
      first, and give entity `k` of the new batch the ordinal `k`. The same
      slots carry components afterwards, the allocator is back where it was,
      the `k`-th probed slot now holds ordinal `|d| - 1 - k`, and the payload
      of every slot outside the window is untouched. */
  function ChurnStep(w: World, win: Window): (r: World)
    requires WorldInv(w)
    ensures WorldInv(r)
    ensures r.alloc == w.alloc
    ensures r.st.presence == w.st.presence
    ensures forall i :: i in w.st.vec && !(win.offset <= i < win.offset + win.len) ==>
      r.st.vec[i] == w.st.vec[i]
    ensures var d := Probe(w.st.presence, win.offset, win.offset + win.len);
      forall k :: 0 <= k < |d| ==> r.st.vec[d[k]] == |d| - 1 - k
  {
    var deletes := Probe(w.st.presence, win.offset, win.offset + win.len);
    DeleteThenCreate(w, deletes);
    var w1 := DeleteAll(w, deletes).value;
    var (alloc, created) := CreateN(w1.alloc, |deletes|);
    Reinsert(w, w1, deletes);
    InsertBatch(World(alloc, w1.st), created).value
  }

  /** `rounds` churn rounds, each drawing its window then applying it. */
  function ChurnPass(w: World, capacity: nat, rng: Rng, rounds: nat): (r: Result<(World, Rng), Panic>)
    requires WorldInv(w)
    ensures r.Success? <==> rounds == 0 || capacity / 5000 > 1
    ensures r.Failure? ==> r.error == EmptyRange(1, capacity / 5000)
    ensures r.Success? ==>
      var (w', rng') := r.value;
      && WorldInv(w')
      && w'.alloc == w.alloc
      && w'.st.presence == w.st.presence
      && rng' == Rng(rng.stream, rng.pos + 2 * rounds)
    decreases rounds
  {
    if rounds == 0 then Success((w, rng))
    else
      var (win, rng1) :- DrawWindow(capacity, rng);
      ChurnPass(ChurnStep(w, win), capacity, rng1, rounds - 1)
  }
}

=== FILE: cuts.dfy ===
/** `CutsIter`, the run-length generator: it splits a budget into runs whose
    lengths shrink roughly geometrically, each drawn from the generator. */
module Cuts {
  import opened Wrappers
  import opened Random

  /** The iterator's only state: the budget not yet handed out. */
  datatype CutsIter = CutsIter(remaining: nat)

  function New(total: nat): CutsIter {
    CutsIter(total)
  }

  function Sum(s: seq<nat>): nat {
    if s == [] then 0 else s[0] + Sum(s[1..])
  }

  /** The largest cut allowed with `remaining` budget left: half the budget,
      but at least 2, and never more than the budget. */
  function MaxLen(remaining: nat): (m: nat)
    requires remaining > 0
    ensures 1 <= m <= remaining
    ensures remaining / 2 <= m
    ensures m <= remaining / 2 || m <= 2
    ensures remaining >= 2 ==> m >= 2
  {
    var half := remaining / 2;
    var atLeastTwo := if half < 2 then 2 else half;
    if atLeastTwo < remaining then atLeastTwo else remaining
  }

  /** `Iterator::next`: no cut once the budget is spent; otherwise a cut in
      `[1, MaxLen(remaining)]`, taken off the budget. */
  function Next(it: CutsIter, rng: Rng): (r: (Option<nat>, CutsIter, Rng))
    ensures r.0.None? <==> it.remaining == 0
    ensures r.0.None? ==> r.1 == it && r.2 == rng
    ensures r.0.Some? ==> 1 <= r.0.value <= MaxLen(it.remaining)
    ensures r.0.Some? ==> r.1.remaining + r.0.value == it.remaining
    ensures r.0.Some? ==> r.2 == Rng(rng.stream, rng.pos + 1)
  {
    if it.remaining == 0 then (None, it, rng)
    else
      var maxLen := MaxLen(it.remaining);
      // gen_range(1, max_len + 1): the range is never empty, since max_len >= 1
      var (cut, rng') := Sample(rng, 1, maxLen + 1);
      (Some(cut), CutsIter(it.remaining - cut), rng')
  }

  /** The cut sequences a `CutsIter` started at `total` may yield: every cut
      lies in `[1, MaxLen(budget left)]`, and the cuts use the budget up. */
  ghost predicate ValidCuts(total: nat, cuts: seq<nat>)
    decreases |cuts|
  {
    if cuts == [] then total == 0
    else total > 0 && 1 <= cuts[0] <= MaxLen(total) && ValidCuts(total - cuts[0], cuts[1..])
  }

  /** Runs the iterator to exhaustion, as `collect` does. */
  function Collect(it: CutsIter, rng: Rng): (r: (seq<nat>, Rng))
    ensures ValidCuts(it.remaining, r.0)
    ensures r.1 == Rng(rng.stream, rng.pos + |r.0|)
    decreases it.remaining
  {
    match Next(it, rng)
    case (None, _, rng') => ([], rng')
    case (Some(cut), it', rng') =>
      var (rest, rng'') := Collect(it', rng');
      ([cut] + rest, rng'')
  }

  /** A valid cut sequence spends exactly its budget, in cuts of at least 1,
      so there are at most `total` of them. */
  lemma {:induction false} ValidCutsSpendBudget(total: nat, cuts: seq<nat>)
    requires ValidCuts(total, cuts)
    ensures Sum(cuts) == total
    ensures forall k :: 0 <= k < |cuts| ==> 1 <= cuts[k] <= total
    ensures |cuts| <= total
    decreases |cuts|
  {
    if cuts != [] {
      ValidCutsSpendBudget(total - cuts[0], cuts[1..]);
      forall k | 1 <= k < |cuts|
        ensures 1 <= cuts[k] <= total
      {
        assert cuts[k] == cuts[1..][k - 1];
      }
    }
  }

  /** The cuts of `CutsIter::new(total)` sum to `total`, each is at least 1,
      and `CutsIter::new(0)` yields none. */
  lemma CollectSpendsTotal(total: nat, rng: Rng)
    ensures Sum(Collect(New(total), rng).0) == total
    ensures forall c :: c in Collect(New(total), rng).0 ==> 1 <= c <= total
    ensures |Collect(New(total), rng).0| <= total
    ensures Collect(New(total), rng).0 == [] <==> total == 0
  {
    var cuts := Collect(New(total), rng).0;
    ValidCutsSpendBudget(total, cuts);
  }

  /** The oracle that makes the iterator yield `cuts` from draw `start` on. */
  function Script(cuts: seq<nat>, start: nat): nat -> nat {
    n => if start <= n < start + |cuts| && cuts[n - start] > 0 then cuts[n - start] - 1 else 0
  }

  lemma ModSmall(x: nat, m: nat)
    requires x < m
    ensures x % m == x
  {
  }

  /** Fed the draw `c - 1`, the iterator yields exactly the cut `c`. */
  lemma NextFollowsScript(total: nat, c: nat, s: nat -> nat, pos: nat)
    requires total > 0 && 1 <= c <= MaxLen(total)
    requires s(pos) + 1 == c
    ensures Next(CutsIter(total), Rng(s, pos)) == (Some(c), CutsIter(total - c), Rng(s, pos + 1))
  {
    var m := MaxLen(total);
    ModSmall(c - 1, m);
    assert Sample(Rng(s, pos), 1, m + 1).0 == c;
  }

  lemma {:induction false} CollectFollowsScript(total: nat, cuts: seq<nat>, s: nat -> nat, pos: nat)
    requires ValidCuts(total, cuts)
    requires forall k :: 0 <= k < |cuts| ==> s(pos + k) + 1 == cuts[k]
    ensures Collect(CutsIter(total), Rng(s, pos)).0 == cuts
    decreases |cuts|
  {
    if cuts != [] {
      assert s(pos + 0) + 1 == cuts[0];
      NextFollowsScript(total, cuts[0], s, pos);
      forall k | 0 <= k < |cuts[1..]|
        ensures s(pos + 1 + k) + 1 == cuts[1..][k]
      {
        assert s(pos + (k + 1)) + 1 == cuts[k + 1];
      }
      CollectFollowsScript(total - cuts[0], cuts[1..], s, pos + 1);
      var rest := Collect(CutsIter(total - cuts[0]), Rng(s, pos + 1));
      assert Collect(CutsIter(total), Rng(s, pos)).0 == [cuts[0]] + rest.0;
      assert [cuts[0]] + cuts[1..] == cuts;
    }
  }

  /** The scripted oracle drives the iterator through exactly `cuts`. */
  lemma ScriptYields(total: nat, cuts: seq<nat>, pos: nat)
    requires ValidCuts(total, cuts)
    ensures Collect(New(total), Rng(Script(cuts, pos), pos)).0 == cuts
  {
    var s := Script(cuts, pos);
    ValidCutsSpendBudget(total, cuts);
    forall k | 0 <= k < |cuts|
      ensures s(pos + k) + 1 == cuts[k]
    {
      assert cuts[k] >= 1;
    }
    CollectFollowsScript(total, cuts, s, pos);
  }

  /** Conversely, every valid cut sequence is what the iterator yields for
      some oracle: `ValidCuts` describes exactly the iterator's outputs. */
  lemma CollectReachesAll(total: nat, cuts: seq<nat>, pos: nat)
    requires ValidCuts(total, cuts)
    ensures exists s: nat -> nat :: Collect(New(total), Rng(s, pos)).0 == cuts
  {
    ScriptYields(total, cuts, pos);
  }
}

=== FILE: fill.dfy ===
/** The fill-to-target block of one sweep step: the plan of populated and
    skipped runs for a fill percentage, and its application to a fresh world. */
module Fill {
  import opened Random
  import opened Cuts
  import opened Ecs

  /** One run of the plan: `len` consecutive new entities, either populated
      with all five components or created bare. */
  datatype Cut = Cut(len: nat, populate: bool)

  /** `num_set`: how many of `capacity` entities carry components at
      `percent` fill, rounded down. */
  function NumSet(capacity: nat, percent: nat): (n: nat)
    ensures percent <= 100 ==> n <= capacity
    ensures percent == 0 ==> n == 0
    ensures percent == 100 ==> n == capacity
  {
    capacity * percent / 100
  }

  /** `num_set` is `percent` percent of the capacity, rounded down. */
  lemma NumSetRoundsDown(capacity: nat, percent: nat)
    ensures NumSet(capacity, percent) * 100 <= capacity * percent < NumSet(capacity, percent) * 100 + 100
  {
  }

  /** `num_unset`: the rest of the capacity. */
  function NumUnset(capacity: nat, percent: nat): (n: nat)
    requires percent <= 100
    ensures NumSet(capacity, percent) + n == capacity
  {
    capacity - NumSet(capacity, percent)
  }

  function Tag(lens: seq<nat>, populate: bool): (r: seq<Cut>)
    ensures |r| == |lens| && forall k :: 0 <= k < |r| ==> r[k] == Cut(lens[k], populate)
  {
    if lens == [] then [] else [Cut(lens[0], populate)] + Tag(lens[1..], populate)
  }

  /** The length a run contributes to the total of one kind. */
  function Weight(c: Cut, populate: bool): nat {
    if c.populate == populate then c.len else 0
  }

  /** The total length of the runs of one kind. */
  function SumWhere(cuts: seq<Cut>, populate: bool): nat {
    if cuts == [] then 0 else Weight(cuts[0], populate) + SumWhere(cuts[1..], populate)
  }

  lemma {:induction false} SumWhereConcat(a: seq<Cut>, b: seq<Cut>, populate: bool)
    ensures SumWhere(a + b, populate) == SumWhere(a, populate) + SumWhere(b, populate)
    decreases |a|
  {
    if a == [] {
      assert a + b == b;
    } else {
      assert (a + b)[0] == a[0];
      assert (a + b)[1..] == a[1..] + b;
      SumWhereConcat(a[1..], b, populate);
    }
  }

  /** Tagging a list of lengths puts all of them on the tagged side. */
  lemma {:induction false} SumWhereTag(lens: seq<nat>, tag: bool, populate: bool)
    ensures SumWhere(Tag(lens, tag), populate) == if tag == populate then Sum(lens) else 0
    decreases |lens|
  {
    if lens != [] {
      assert Tag(lens, tag)[1..] == Tag(lens[1..], tag);
      SumWhereTag(lens[1..], tag, populate);
    }
  }

  /** Taking one run out of the middle of a plan takes its weight out of
      the total. */
  lemma SumWhereRemove(b: seq<Cut>, k: nat, populate: bool)
    requires k < |b|
    ensures SumWhere(b, populate) == Weight(b[k], populate) + SumWhere(b[..k] + b[k + 1..], populate)
  {
    var tail := [b[k]] + b[k + 1..];
    assert b == b[..k] + tail;
    SumWhereConcat(b[..k], tail, populate);
    assert tail[1..] == b[k + 1..];
    SumWhereConcat(b[..k], b[k + 1..], populate);
  }

  /** Removing the same run from two permutations of each other leaves two
      permutations of each other. */
  lemma MultisetRemove(a: seq<Cut>, b: seq<Cut>, k: nat)
    requires |a| > 0 && k < |b| && b[k] == a[0]
    requires multiset(a) == multiset(b)
    ensures multiset(a[1..]) == multiset(b[..k] + b[k + 1..])
  {
    var x := a[0];
    var rest := b[..k] + b[k + 1..];
    assert b == b[..k] + [x] + b[k + 1..];
    assert a == [x] + a[1..];
    forall y
      ensures multiset(a[1..])[y] == multiset(rest)[y]
    {
      assert multiset(a)[y] == multiset{x}[y] + multiset(a[1..])[y];
      assert multiset(b)[y] == multiset(b[..k])[y] + multiset{x}[y] + multiset(b[k + 1..])[y];
    }
  }

  /** Reordering the runs changes neither total: whatever permutation the
      shuffle picks, the populated and skipped lengths stay the same. */
  lemma {:induction false} SumWherePermutation(a: seq<Cut>, b: seq<Cut>, populate: bool)
    requires multiset(a) == multiset(b)
    ensures SumWhere(a, populate) == SumWhere(b, populate)
    decreases |a|
  {
    if a != [] {
      assert a[0] in multiset(b);
      var k :| 0 <= k < |b| && b[k] == a[0];
      MultisetRemove(a, b, k);
      SumWherePermutation(a[1..], b[..k] + b[k + 1..], populate);
      SumWhereRemove(b, k, populate);
    }
  }

  /** The shuffled plan: the cuts of `num_set` tagged populated, then those of
      `num_unset` tagged skipped, shuffled together. */
  function Plan(capacity: nat, percent: nat, rng: Rng): (r: (seq<Cut>, Rng))
    requires percent <= 100
    ensures SumWhere(r.0, true) == NumSet(capacity, percent)
    ensures SumWhere(r.0, false) == NumUnset(capacity, percent)
    ensures forall k :: 0 <= k < |r.0| ==> r.0[k].len >= 1
    ensures percent == 100 ==> forall k :: 0 <= k < |r.0| ==> r.0[k].populate
    ensures percent == 0 ==> forall k :: 0 <= k < |r.0| ==> !r.0[k].populate
  {
    var (setLens, rng1) := Collect(New(NumSet(capacity, percent)), rng);
    var (unsetLens, rng2) := Collect(New(NumUnset(capacity, percent)), rng1);
    var cuts := Tag(setLens, true) + Tag(unsetLens, false);
    var (shuffled, rng3) := Shuffle(cuts, rng2);
    PlanSound(capacity, percent, setLens, unsetLens, shuffled);
    (shuffled, rng3)
  }

  /** Any reordering of the two collected cut lists, tagged and chained,
      has the totals and runs `Plan` promises. */
  lemma PlanSound(capacity: nat, percent: nat, setLens: seq<nat>, unsetLens: seq<nat>, shuffled: seq<Cut>)
    requires percent <= 100
    requires ValidCuts(NumSet(capacity, percent), setLens)
    requires ValidCuts(NumUnset(capacity, percent), unsetLens)
    requires multiset(shuffled) == multiset(Tag(setLens, true) + Tag(unsetLens, false))
    ensures SumWhere(shuffled, true) == NumSet(capacity, percent)
    ensures SumWhere(shuffled, false) == NumUnset(capacity, percent)
    ensures forall k :: 0 <= k < |shuffled| ==> shuffled[k].len >= 1
    ensures percent == 100 ==> forall k :: 0 <= k < |shuffled| ==> shuffled[k].populate
    ensures percent == 0 ==> forall k :: 0 <= k < |shuffled| ==> !shuffled[k].populate
  {
    var numSet, numUnset := NumSet(capacity, percent), NumUnset(capacity, percent);
    PlanTotals(setLens, unsetLens, numSet, numUnset, shuffled);
    PlanRuns(setLens, unsetLens, numSet, numUnset, shuffled);
  }

  /** Why the shuffled plan spends exactly both budgets. */
  lemma PlanTotals(setLens: seq<nat>, unsetLens: seq<nat>, numSet: nat, numUnset: nat, shuffled: seq<Cut>)
    requires ValidCuts(numSet, setLens) && ValidCuts(numUnset, unsetLens)
    requires multiset(shuffled) == multiset(Tag(setLens, true) + Tag(unsetLens, false))
    ensures SumWhere(shuffled, true) == numSet && SumWhere(shuffled, false) == numUnset
  {
    var cuts := Tag(setLens, true) + Tag(unsetLens, false);
    ValidCutsSpendBudget(numSet, setLens);
    ValidCutsSpendBudget(numUnset, unsetLens);
    SumWhereConcat(Tag(setLens, true), Tag(unsetLens, false), true);
    SumWhereConcat(Tag(setLens, true), Tag(unsetLens, false), false);
    SumWhereTag(setLens, true, true);
    SumWhereTag(setLens, true, false);
    SumWhereTag(unsetLens, false, true);
    SumWhereTag(unsetLens, false, false);
    SumWherePermutation(cuts, shuffled, true);
    SumWherePermutation(cuts, shuffled, false);
  }

  lemma InTag(lens: seq<nat>, tag: bool, c: Cut)
    requires c in Tag(lens, tag)
    ensures c.populate == tag && c.len in lens
  {
    var j :| 0 <= j < |Tag(lens, tag)| && Tag(lens, tag)[j] == c;
    assert c.len == lens[j];
  }

  /** Every run of the shuffled plan is one of the cuts, so it is non-empty,
      and a side with no budget contributes no run. */
  lemma PlanRuns(setLens: seq<nat>, unsetLens: seq<nat>, numSet: nat, numUnset: nat, shuffled: seq<Cut>)
    requires ValidCuts(numSet, setLens) && ValidCuts(numUnset, unsetLens)
    requires multiset(shuffled) == multiset(Tag(setLens, true) + Tag(unsetLens, false))
    ensures forall k :: 0 <= k < |shuffled| ==> shuffled[k].len >= 1
    ensures numUnset == 0 ==> forall k :: 0 <= k < |shuffled| ==> shuffled[k].populate
    ensures numSet == 0 ==> forall k :: 0 <= k < |shuffled| ==> !shuffled[k].populate
  {
    ValidCutsSpendBudget(numSet, setLens);
    ValidCutsSpendBudget(numUnset, unsetLens);
    forall k | 0 <= k < |shuffled|
      ensures shuffled[k].len >= 1
      ensures numUnset == 0 ==> shuffled[k].populate
      ensures numSet == 0 ==> !shuffled[k].populate
    {
      var c := shuffled[k];
      assert c in multiset(Tag(setLens, true) + Tag(unsetLens, false));
      if c in Tag(setLens, true) {
        InTag(setLens, true, c);
      } else {
        InTag(unsetLens, false, c);
      }
    }
  }

  /** A batch of distinct slots marks as many slots as it holds. */
  lemma {:induction false} DistinctElems(ids: seq<nat>)
    requires Distinct(ids)
    ensures |Elems(ids)| == |ids|
    decreases |ids|
  {
    if ids != [] {
      var n := |ids| - 1;
      ElemsLast(ids);
      DistinctElems(ids[..n]);
      assert ids[n] !in Elems(ids[..n]);
    }
  }

  /** The insert loop over a run's freshly created entities, which carry no
      components yet: entity `k` of the run gets ordinal `k`, and every
      earlier payload stays. */
  method PopulateRun(w: World, ids: seq<nat>) returns (r: World)
    requires WorldInv(w) && Distinct(ids)
    requires forall k :: 0 <= k < |ids| ==> IsAlive(w.alloc, ids[k]) && ids[k] !in w.st.presence
    ensures WorldInv(r) && r.alloc == w.alloc
    ensures r.st.presence == w.st.presence + Elems(ids)
    ensures |r.st.presence| == |w.st.presence| + |ids|
    ensures forall i :: i in w.st.vec ==> i in r.st.vec && r.st.vec[i] == w.st.vec[i]
    ensures forall k :: 0 <= k < |ids| ==> ids[k] in r.st.vec && r.st.vec[ids[k]] == k
  {
    InsertBatchEffect(w, ids);
    DistinctElems(ids);
    assert w.st.presence !! Elems(ids);
    r := InsertBatch(w, ids).value;
  }

  /** Slots issued in order from `start` are the slots `start .. start +
      len`, and the payload keyed by position reads back as `i - start`. */
  lemma FreshLayout(m: map<nat, nat>, ids: seq<nat>, start: nat)
    requires forall k :: 0 <= k < |ids| ==> ids[k] == start + k
    requires forall k :: 0 <= k < |ids| ==> ids[k] in m && m[ids[k]] == k
    ensures Elems(ids) == Range(start, start + |ids|)
    ensures forall i :: i in Range(start, start + |ids|) ==> i in m && m[i] == i - start
  {
    forall i | i in Range(start, start + |ids|)
      ensures i in Elems(ids) && i in m && m[i] == i - start
    {
      assert ids[i - start] == i;
    }
  }

  /** The slots `lo .. hi`. */
  function Range(lo: nat, hi: nat): (r: set<nat>)
    ensures forall i :: i in r <==> lo <= i < hi
    decreases hi - lo
  {
    if hi <= lo then {} else {lo} + Range(lo + 1, hi)
  }

  /** The slots a run marks when laid out from slot `start`: all of them for
      a populated run, none for a skipped one. */
  function RunSlots(start: nat, cut: Cut): set<nat> {
    if cut.populate then Range(start, start + cut.len) else {}
  }

  /** The slots a plan marks when its runs are laid out one after another
      from slot `start`. */
  function Layout(cuts: seq<Cut>, start: nat): set<nat>
    decreases |cuts|
  {
    if cuts == [] then {} else RunSlots(start, cuts[0]) + Layout(cuts[1..], start + cuts[0].len)
  }

  /** A run laid out from `lo` to `hi` marks `hi - lo` slots. */
  lemma {:induction false} RangeCard(lo: nat, hi: nat)
    ensures |Range(lo, hi)| == if hi <= lo then 0 else hi - lo
    decreases hi - lo
  {
    if lo < hi {
      RangeCard(lo + 1, hi);
      assert lo !in Range(lo + 1, hi);
    }
  }

  /** A plan laid out from `start` marks no slot below `start`. */
  lemma {:induction false} LayoutAbove(cuts: seq<Cut>, start: nat)
    ensures forall i :: i in Layout(cuts, start) ==> start <= i
    decreases |cuts|
  {
    if cuts != [] {
      LayoutAbove(cuts[1..], start + cuts[0].len);
    }
  }

  /** The runs of a plan laid out one after another never overlap, so the
      layout marks exactly the plan's populated total. */
  lemma {:induction false} LayoutCard(cuts: seq<Cut>, start: nat)
    ensures |Layout(cuts, start)| == SumWhere(cuts, true)
    decreases |cuts|
  {
    if cuts != [] {
      var run := RunSlots(start, cuts[0]);
      var rest := Layout(cuts[1..], start + cuts[0].len);
      LayoutCard(cuts[1..], start + cuts[0].len);
      LayoutAbove(cuts[1..], start + cuts[0].len);
      RangeCard(start, start + cuts[0].len);
      assert |run| == Weight(cuts[0], true);
      assert run !! rest;
      assert |run + rest| == |run| + |rest|;
    }
  }

  /** The fill block's layout marks `num_set` slots. */
  lemma PlanLayoutCard(capacity: nat, percent: nat, rng: Rng)
    requires percent <= 100
    ensures |Layout(Plan(capacity, percent, rng).0, 0)| == NumSet(capacity, percent)
  {
    LayoutCard(Plan(capacity, percent, rng).0, 0);
  }

  /** One run of the plan: create `len` entities, then either give each of
      them the five components (entity `k` of the run carrying ordinal `k`)
      or leave them bare. No insert can panic, since every created entity
      is alive. On a world with no freed slots the run takes the next `len`
      fresh slots, and a populated run marks exactly those. */
  method ApplyCut(w: World, cut: Cut) returns (r: World)
    requires WorldInv(w)
    ensures WorldInv(r)
    ensures |r.st.presence| == |w.st.presence| + (if cut.populate then cut.len else 0)
    ensures forall i :: i in w.st.vec ==> i in r.st.vec && r.st.vec[i] == w.st.vec[i]
    ensures w.alloc.free == [] ==> r.alloc == Allocator(w.alloc.next + cut.len, [])
    ensures w.alloc.free == [] ==> r.st.presence == w.st.presence + RunSlots(w.alloc.next, cut)
    ensures w.alloc.free == [] ==>
      forall i :: i in RunSlots(w.alloc.next, cut) ==> i in r.st.vec && r.st.vec[i] == i - w.alloc.next
  {
    if cut.populate {
      r := PopulatedCut(w, cut.len);
    } else {
      r := SkippedCut(w, cut.len);
    }
  }

  /** A populated run: `len` new entities, entity `k` of the run carrying
      ordinal `k`; with no freed slot they fill the next `len` fresh slots. */
  method PopulatedCut(w: World, len: nat) returns (r: World)
    requires WorldInv(w)
    ensures WorldInv(r)
    ensures |r.st.presence| == |w.st.presence| + len
    ensures forall i :: i in w.st.vec ==> i in r.st.vec && r.st.vec[i] == w.st.vec[i]
    ensures w.alloc.free == [] ==> r.alloc == Allocator(w.alloc.next + len, [])
    ensures w.alloc.free == [] ==> r.st.presence == w.st.presence + Range(w.alloc.next, w.alloc.next + len)
    ensures w.alloc.free == [] ==>
      forall i :: i in Range(w.alloc.next, w.alloc.next + len) ==> i in r.st.vec && r.st.vec[i] == i - w.alloc.next
  {
    var created, ids := CreateRun(w, len);
    r := PopulateRun(created, ids);
    if w.alloc.free == [] {
      FreshLayout(r.st.vec, ids, w.alloc.next);
    }
  }

  /** A skipped run: `len` new entities that stay alive and bare. */
  method SkippedCut(w: World, len: nat) returns (r: World)
    requires WorldInv(w)
    ensures WorldInv(r) && r.st == w.st
    ensures w.alloc.free == [] ==> r.alloc == Allocator(w.alloc.next + len, [])
  {
    var ids;
    r, ids := CreateRun(w, len);
  }

  /** `create_iter().take(len)`: `len` distinct new entities, none of them
      carrying components yet; with no freed slot they are the next `len`
      fresh slots in order. */
  method CreateRun(w: World, len: nat) returns (created: World, ids: seq<nat>)
    requires WorldInv(w)
    ensures WorldInv(created) && created.st == w.st
    ensures |ids| == len && Distinct(ids)
    ensures forall k :: 0 <= k < len ==> IsAlive(created.alloc, ids[k]) && ids[k] !in w.st.presence
    ensures w.alloc.free == [] ==> created.alloc == Allocator(w.alloc.next + len, [])
    ensures w.alloc.free == [] ==> forall k :: 0 <= k < len ==> ids[k] == w.alloc.next + k
  {
    var (alloc, issued) := CreateN(w.alloc, len);
    if w.alloc.free == [] {
      CreateNFresh(w.alloc, len);
    }
    created, ids := World(alloc, w.st), issued;
  }

  /** Applies the runs in order. On a world with no freed slots the runs
      take consecutive fresh slots in plan order. */
  method ApplyCuts(w: World, cuts: seq<Cut>) returns (r: World)
    requires WorldInv(w)
    ensures WorldInv(r)
    ensures |r.st.presence| == |w.st.presence| + SumWhere(cuts, true)
    ensures w.alloc.free == [] ==>
      r.alloc == Allocator(w.alloc.next + SumWhere(cuts, true) + SumWhere(cuts, false), [])
    ensures w.alloc.free == [] ==> r.st.presence == w.st.presence + Layout(cuts, w.alloc.next)
    decreases |cuts|
  {
    if cuts == [] {
      r := w;
    } else {
      var w1 := ApplyCut(w, cuts[0]);
      r := ApplyCuts(w1, cuts[1..]);
      if w.alloc.free == [] {
        LayoutStep(cuts, w.alloc.next, w1.alloc.next, w.st.presence, w1.st.presence, r.st.presence);
      }
    }
  }

  /** Laying out the first run and then the rest from where it ends is
      laying out the whole plan. */
  lemma LayoutStep(cuts: seq<Cut>, start: nat, mid: nat, p0: set<nat>, p1: set<nat>, p2: set<nat>)
    requires cuts != [] && mid == start + cuts[0].len
    requires p1 == p0 + RunSlots(start, cuts[0])
    requires p2 == p1 + Layout(cuts[1..], mid)
    ensures p2 == p0 + Layout(cuts, start)
  {
  }

  /** The fill-to-target block on a fresh world: exactly `capacity` entities
      are created, all alive, and the components sit on the slots of the
      shuffled plan's populated runs, laid out from slot 0 (`num_set` of
      them, by `PlanLayoutCard`). */
  method FillWorld(capacity: nat, percent: nat, rng: Rng) returns (w: World, rngOut: Rng)
    requires percent <= 100
    ensures WorldInv(w)
    ensures w.alloc == Allocator(capacity, [])
    ensures w.st.presence == Layout(Plan(capacity, percent, rng).0, 0)
    ensures rngOut == Plan(capacity, percent, rng).1
  {
    var (cuts, rest) := Plan(capacity, percent, rng);
    w := ApplyCuts(NewWorld(), cuts);
    rngOut := rest;
  }

  /** The fill block as the sweep sees it: `capacity` entities issued, none
      freed, exactly `num_set` of them carrying the components, and the
      generator left where the plan left it. */
  method FillCounts(capacity: nat, percent: nat, rng: Rng) returns (w: World, rngOut: Rng)
    requires percent <= 100
    ensures WorldInv(w)
    ensures w.alloc == Allocator(capacity, [])
    ensures |w.st.presence| == NumSet(capacity, percent)
    ensures rngOut == Plan(capacity, percent, rng).1
  {
    w, rngOut := FillWorld(capacity, percent, rng);
    PlanLayoutCard(capacity, percent, rng);
  }
}

=== FILE: rng.dfy ===
/** The thread-local random generator, seen as an oracle. The benchmark draws
    run lengths, the shuffle and the churn windows from one generator, so the
    model threads one stream of raw draws through every call. */
module Random {
  import opened Wrappers
  import opened Fault

  /** An oracle stream of raw draws and the index of the next unread one. */
  datatype Rng = Rng(stream: nat -> nat, pos: nat)

  /** One draw mapped into the non-empty range `[lo, hi)`. */
  function Sample(rng: Rng, lo: nat, hi: nat): (r: (nat, Rng))
    requires lo < hi
    ensures lo <= r.0 < hi
    ensures r.1 == Rng(rng.stream, rng.pos + 1)
  {
    (lo + rng.stream(rng.pos) % (hi - lo), Rng(rng.stream, rng.pos + 1))
  }

  /** Every value of the range is the outcome of some oracle, so constraining
      draws through `Sample` loses none of the generator's behaviours. */
  lemma SampleReachesAll(pos: nat, lo: nat, hi: nat, v: nat)
    requires lo <= v < hi
    ensures exists s: nat -> nat :: Sample(Rng(s, pos), lo, hi).0 == v
  {
    var s: nat -> nat := _ => v - lo;
    assert Sample(Rng(s, pos), lo, hi).0 == v;
  }

  /** `gen_range(lo, hi)`: a draw from `[lo, hi)`, and a panic when that
      range is empty. */
  function GenRange(rng: Rng, lo: nat, hi: nat): (r: Result<(nat, Rng), Panic>)
    ensures r.Success? <==> lo < hi
    ensures r.Success? ==> lo <= r.value.0 < hi && r.value.1 == Rng(rng.stream, rng.pos + 1)
    ensures r.Failure? ==> r.error == EmptyRange(lo, hi)
  {
    if lo < hi then Success(Sample(rng, lo, hi)) else Failure(EmptyRange(lo, hi))
  }

  /** Exchanges the elements at `i` and `j`. */
  function Swap<T>(s: seq<T>, i: nat, j: nat): (r: seq<T>)
    requires i < |s| && j < |s|
    ensures |r| == |s| && multiset(r) == multiset(s)
    ensures r[i] == s[j] && r[j] == s[i]
    ensures forall k :: 0 <= k < |s| && k != i && k != j ==> r[k] == s[k]
  {
    s[i := s[j]][j := s[i]]
  }

  /** The shuffle's swap loop, from position `i` down to position 1: each
      step swaps position `i` with a position drawn from `[0, i]`. */
  function ShuffleDown<T>(s: seq<T>, i: nat, rng: Rng): (r: (seq<T>, Rng))
    requires i < |s|
    ensures |r.0| == |s| && multiset(r.0) == multiset(s)
    ensures r.1.pos == rng.pos + i
    decreases i
  {
    if i == 0 then (s, rng)
    else
      var (j, rng') := Sample(rng, 0, i + 1);
      ShuffleDown(Swap(s, i, j), i - 1, rng')
  }

  /** `shuffle`: a permutation of `s` chosen by the oracle. */
  function Shuffle<T>(s: seq<T>, rng: Rng): (r: (seq<T>, Rng))
    ensures |r.0| == |s| && multiset(r.0) == multiset(s)
    ensures |s| <= 1 ==> r.0 == s
  {
    if |s| == 0 then (s, rng) else ShuffleDown(s, |s| - 1, rng)
  }
}

=== FILE: world.dfy ===
/** The part of the ECS world the benchmark touches: an entity allocator and
    five storages of the ordinal payload. Both belong to the ECS library,
    whose code is not part of this model; they are stood in for by sequences,
    sets and maps with the library's behaviour. An entity is
    identified by its slot index. */
module Ecs {
  import opened Wrappers
  import opened Fault

  function Elems(s: seq<nat>): set<nat> {
    set x | x in s
  }

  ghost predicate Distinct(s: seq<nat>) {
    forall k, l :: 0 <= k < l < |s| ==> s[k] != s[l]
  }

  /** The allocator: the number of slots issued so far and the stack of
      freed slots awaiting reuse, top first. Every other issued slot is
      alive. */
  datatype Allocator = Allocator(next: nat, free: seq<nat>)

  ghost predicate AllocValid(a: Allocator) {
    (forall k :: 0 <= k < |a.free| ==> a.free[k] < a.next) && Distinct(a.free)
  }

  predicate IsAlive(a: Allocator, id: nat) {
    id < a.next && id !in a.free
  }

  function NewAllocator(): (a: Allocator)
    ensures AllocValid(a) && forall id :: !IsAlive(a, id)
  {
    Allocator(0, [])
  }

  /** Issues a slot: the most recently freed one if there is one, otherwise
      a fresh slot past every slot issued so far. No other slot changes. */
  function Allocate(a: Allocator): (r: (Allocator, nat))
    requires AllocValid(a)
    ensures AllocValid(r.0) && !IsAlive(a, r.1) && IsAlive(r.0, r.1)
    ensures forall i :: i != r.1 ==> (IsAlive(r.0, i) <==> IsAlive(a, i))
    ensures |a.free| > 0 ==> r.1 == a.free[0] && r.0 == Allocator(a.next, a.free[1..])
    ensures |a.free| == 0 ==> r.1 == a.next && r.0 == Allocator(a.next + 1, [])
  {
    if |a.free| > 0 then
      (Allocator(a.next, a.free[1..]), a.free[0])
    else
      (Allocator(a.next + 1, []), a.next)
  }

  /** Frees a live slot and pushes it on the reuse stack; a dead slot is
      refused. No other slot changes. */
  function Kill(a: Allocator, id: nat): (r: Result<Allocator, Panic>)
    requires AllocValid(a)
    ensures r.Success? <==> IsAlive(a, id)
    ensures r.Failure? ==> r.error == DeadEntity(id)
    ensures r.Success? ==> AllocValid(r.value) && !IsAlive(r.value, id)
    ensures r.Success? ==> forall i :: i != id ==> (IsAlive(r.value, i) <==> IsAlive(a, i))
    ensures r.Success? ==> r.value == Allocator(a.next, [id] + a.free)
  {
    if !IsAlive(a, id) then Failure(DeadEntity(id))
    else Success(Allocator(a.next, [id] + a.free))
  }

  /** `create_iter().take(n)`: `n` slots, issued one after another. */
  function CreateN(a: Allocator, n: nat): (r: (Allocator, seq<nat>))
    requires AllocValid(a)
    ensures AllocValid(r.0) && |r.1| == n && Distinct(r.1)
    ensures forall k :: 0 <= k < n ==> !IsAlive(a, r.1[k]) && IsAlive(r.0, r.1[k])
    ensures forall i :: i !in r.1 ==> (IsAlive(r.0, i) <==> IsAlive(a, i))
    decreases n
  {
    if n == 0 then (a, [])
    else
      var (a1, id) := Allocate(a);
      var (a2, ids) := CreateN(a1, n - 1);
      assert id !in ids;
      (a2, [id] + ids)
  }

  /** With at least `n` freed slots waiting, `n` allocations pop the top `n`
      of the reuse stack, top first, and issue no fresh slot. */
  lemma {:induction false} CreateNFromFree(a: Allocator, n: nat)
    requires AllocValid(a) && n <= |a.free|
    ensures CreateN(a, n) == (Allocator(a.next, a.free[n..]), a.free[..n])
    decreases n
  {
    if n > 0 {
      var (a1, id) := Allocate(a);
      CreateNFromFree(a1, n - 1);
      assert CreateN(a, n) == (CreateN(a1, n - 1).0, [id] + CreateN(a1, n - 1).1);
      assert a.free[1..][n - 1..] == a.free[n..];
      assert [a.free[0]] + a.free[1..][..n - 1] == a.free[..n];
    }
  }

  /** With no freed slot waiting, `n` allocations issue the next `n` fresh
      slots, in increasing order. */
  lemma {:induction false} CreateNFresh(a: Allocator, n: nat)
    requires AllocValid(a) && a.free == []
    ensures CreateN(a, n).0 == Allocator(a.next + n, [])
    ensures forall k :: 0 <= k < n ==> CreateN(a, n).1[k] == a.next + k
    decreases n
  {
    if n > 0 {
      var (a1, id) := Allocate(a);
      assert a1 == Allocator(a.next + 1, []) && id == a.next;
      CreateNFresh(a1, n - 1);
      var rest := CreateN(a1, n - 1);
      assert CreateN(a, n) == (rest.0, [id] + rest.1);
    }
  }

  /** The five storages: `VecStorage`, `DenseVecStorage`, `BTreeStorage` and
      `HashMapStorage` of the ordinal, keyed by slot, and the payload-free
      `NullStorage`, which records presence only. */
  datatype Storages = Storages(
    vec: map<nat, nat>,
    dense: map<nat, nat>,
    btree: map<nat, nat>,
    hash: map<nat, nat>,
    presence: set<nat>)

  /** The cross-storage invariant: all four value storages hold the same
      slot-to-ordinal pairs, and the null storage holds exactly their slots. */
  ghost predicate Lockstep(st: Storages) {
    st.dense == st.vec && st.btree == st.vec && st.hash == st.vec && st.presence == st.vec.Keys
  }

  datatype World = World(alloc: Allocator, st: Storages)

  /** The allocator is well formed, the storages agree, and only live slots
      carry components. */
  ghost predicate WorldInv(w: World) {
    AllocValid(w.alloc) && Lockstep(w.st) && forall i :: i in w.st.presence ==> IsAlive(w.alloc, i)
  }

  /** `World::new` with the five components registered. */
  function NewWorld(): (w: World)
    ensures WorldInv(w) && w.st.presence == {} && w.alloc == Allocator(0, [])
  {
    World(NewAllocator(), Storages(map[], map[], map[], map[], {}))
  }

  /** Inserts the ordinal into each value storage and marks the null storage,
      unwrapping each insert. All five inserts refuse a dead entity with the
      same check, so the first of them decides the outcome. */
  function Insert(w: World, id: nat, ordinal: nat): (r: Result<World, Panic>)
    ensures r.Success? <==> IsAlive(w.alloc, id)
    ensures r.Failure? ==> r.error == DeadEntity(id)
    ensures r.Success? ==> r.value.alloc == w.alloc
    ensures r.Success? && Lockstep(w.st) ==>
      && Lockstep(r.value.st)
      && r.value.st.presence == w.st.presence + {id}
      && r.value.st.vec[id] == ordinal
      && forall i :: i in w.st.vec && i != id ==> r.value.st.vec[i] == w.st.vec[i]
  {
    if !IsAlive(w.alloc, id) then Failure(DeadEntity(id))
    else
      Success(World(w.alloc, Storages(
        w.st.vec[id := ordinal],
        w.st.dense[id := ordinal],
        w.st.btree[id := ordinal],
        w.st.hash[id := ordinal],
        w.st.presence + {id})))
  }

  /** The insert loop over a batch: entity `k` of the batch gets ordinal `k`.
      It panics at the first dead entity. */
  function InsertBatch(w: World, ids: seq<nat>): (r: Result<World, Panic>)
    ensures r.Success? <==> forall k :: 0 <= k < |ids| ==> IsAlive(w.alloc, ids[k])
    ensures r.Success? ==> r.value.alloc == w.alloc
    decreases |ids|
  {
    if ids == [] then Success(w)
    else
      var n := |ids| - 1;
      var w1 :- InsertBatch(w, ids[..n]);
      Insert(w1, ids[n], n)
  }

  /** A batch inserted into storages in lockstep leaves them in lockstep,
      marks exactly the batch's slots, gives entity `k` of the batch the
      ordinal `k` in every value storage, and changes no other slot. */
  lemma {:induction false} InsertBatchEffect(w: World, ids: seq<nat>)
    requires Lockstep(w.st) && Distinct(ids)
    requires forall k :: 0 <= k < |ids| ==> IsAlive(w.alloc, ids[k])
    ensures var w' := InsertBatch(w, ids).value;
      && Lockstep(w'.st)
      && w'.st.presence == w.st.presence + Elems(ids)
      && (forall k :: 0 <= k < |ids| ==> w'.st.vec[ids[k]] == k)
      && (forall i :: i in w.st.vec && i !in ids ==> w'.st.vec[i] == w.st.vec[i])
    decreases |ids|
  {
    if ids != [] {
      var n := |ids| - 1;
      var front := ids[..n];
      assert ids == front + [ids[n]];
      assert Elems(ids) == Elems(front) + {ids[n]};
      InsertBatchEffect(w, front);
      var w1 := InsertBatch(w, front).value;
      var w2 := Insert(w1, ids[n], n).value;
      assert InsertBatch(w, ids).value == w2;
      forall k | 0 <= k < |ids|
        ensures w2.st.vec[ids[k]] == k
      {
        if k < n {
          assert front[k] == ids[k];
        }
      }
    }
  }

  /** `delete_entity`: frees the slot and drops its components from every
      storage; a dead slot is refused. */
  function Delete(w: World, id: nat): (r: Result<World, Panic>)
    requires WorldInv(w)
    ensures r.Success? <==> IsAlive(w.alloc, id)
    ensures r.Success? ==> WorldInv(r.value) && r.value.alloc == Allocator(w.alloc.next, [id] + w.alloc.free)
    ensures r.Success? ==> r.value.st.presence == w.st.presence - {id}
    ensures r.Success? ==> forall i :: i in r.value.st.vec ==> i in w.st.vec && r.value.st.vec[i] == w.st.vec[i]
  {
    var alloc :- Kill(w.alloc, id);
    Success(World(alloc, Storages(
      w.st.vec - {id}, w.st.dense - {id}, w.st.btree - {id}, w.st.hash - {id}, w.st.presence - {id})))
  }

  function Reverse(s: seq<nat>): (r: seq<nat>)
    ensures |r| == |s|
    ensures forall k :: 0 <= k < |s| ==> r[k] == s[|s| - 1 - k]
  {
    if s == [] then [] else [s[|s| - 1]] + Reverse(s[..|s| - 1])
  }

  /** Deletes a batch of slots in order, panicking at the first dead one. */
  function DeleteAll(w: World, ids: seq<nat>): (r: Result<World, Panic>)
    requires WorldInv(w)
    ensures r.Success? ==> WorldInv(r.value)
    ensures r.Success? ==> forall i :: i in r.value.st.vec ==> i in w.st.vec && r.value.st.vec[i] == w.st.vec[i]
    decreases |ids|
  {
    if ids == [] then Success(w)
    else
      var w1 :- DeleteAll(w, ids[..|ids| - 1]);
      Delete(w1, ids[|ids| - 1])
  }

  /** Deleting distinct live slots always succeeds and pushes them on the
      reuse stack, the last deleted on top. */
  lemma {:induction false} DeleteAllFrees(w: World, ids: seq<nat>)
    requires WorldInv(w) && Distinct(ids)
    requires forall k :: 0 <= k < |ids| ==> IsAlive(w.alloc, ids[k])
    ensures DeleteAll(w, ids).Success?
    ensures DeleteAll(w, ids).value.alloc == Allocator(w.alloc.next, Reverse(ids) + w.alloc.free)
    decreases |ids|
  {
    if ids != [] {
      var n := |ids| - 1;
      var front := ids[..n];
      DeleteAllFrees(w, front);
      var w1 := DeleteAll(w, front).value;
      var x := ids[n];
      ReverseLast(ids);
      assert x !in Reverse(front) + w.alloc.free;
      assert DeleteAll(w, ids) == Delete(w1, x);
      assert [x] + (Reverse(front) + w.alloc.free) == Reverse(ids) + w.alloc.free;
    }
  }

  lemma ReverseLast(s: seq<nat>)
    requires |s| > 0 && Distinct(s)
    ensures Reverse(s) == [s[|s| - 1]] + Reverse(s[..|s| - 1])
    ensures s[|s| - 1] !in Reverse(s[..|s| - 1])
  {
  }

  lemma ElemsLast(s: seq<nat>)
    requires |s| > 0
    ensures Elems(s) == Elems(s[..|s| - 1]) + {s[|s| - 1]}
  {
    assert s == s[..|s| - 1] + [s[|s| - 1]];
  }

  /** Deleting distinct live slots drops exactly their components. */
  lemma {:induction false} DeleteAllDrops(w: World, ids: seq<nat>)
    requires WorldInv(w) && Distinct(ids)
    requires forall k :: 0 <= k < |ids| ==> IsAlive(w.alloc, ids[k])
    ensures DeleteAll(w, ids).Success?
    ensures DeleteAll(w, ids).value.st.presence == w.st.presence - Elems(ids)
    decreases |ids|
  {
    DeleteAllFrees(w, ids);
    if ids != [] {
      var n := |ids| - 1;
      var front := ids[..n];
      DeleteAllDrops(w, front);
      ElemsLast(ids);
      var w1 := DeleteAll(w, front).value;
      assert DeleteAll(w, ids) == Delete(w1, ids[n]);
    }
  }
}

=== FILE: wrappers.dfy ===
/** Failure-compatible wrappers used throughout the model. */
module Wrappers {

  /** The value an iterator's `next` returns. */
  datatype Option<+T> = None | Some(value: T)

  /** A value, or the reason the benchmark aborted; usable with `:-`. */
  datatype Result<+T, +E> = Success(value: T) | Failure(error: E) {

    predicate IsFailure() {
      Failure?
    }

    function PropagateFailure<U>(): Result<U, E>
      requires Failure?
    {
      Failure(error)
    }

    function Extract(): T
      requires Success?
    {
      value
    }
  }
}

/** The ways one sweep step of the benchmark can abort. The program unwraps
    every fallible call and asserts its cross-checks, so each one is a panic. */
module Fault {

  datatype Panic =
      /** `gen_range(lo, hi)` called with `lo >= hi`. */
    | EmptyRange(lo: nat, hi: nat)
      /** A storage insert or an entity delete addressed a dead entity. */
    | DeadEntity(id: nat)
      /** An `assert_eq!` of two storage sums failed. */
    | SumMismatch(left: nat, right: nat)
}
